=== FILE: README.md ===
# Clusterkraf transition pipeline: camera debouncer, transition animation, options

A Dafny model of three pieces of the Clusterkraf map-clustering library
(`com.twotoasters.clusterkraf`):

- **`ClusteringOnCameraChangeListener`** (module `CameraChange`): the camera-change
  debouncer. Its one field `dirty` starts at 0. A camera notification at time `now`
  is handed to the host only when `dirty < now - L` (a Java `long` subtraction, `L`
  the options' dirty lifetime) and the host is still reachable; then `dirty := now`.
  `setDirty(t)` moves the window. Modelled as a pure step function plus a replay of
  a sequence of notifications, with the greedy rate-limit proved over whole runs.
- **`ClusterTransitionsAnimation`** (module `TransitionsAnimation`): the Idle/Active
  animation driver. `animate` is ignored while an animation is installed or when the
  options or host are gone; otherwise it installs the transition list, tells the host
  "starting" and starts an animator driving the value 0 → 1 over the transition
  duration. A negative duration is rejected after the list is installed, which leaves
  the driver stuck. `onAnimationEnd` returns to Idle and tells the host "finished" if it is
  still reachable; `onAnimationCancel` and `onAnimationRepeat` do nothing.
  `State.getPositions` interpolates each transition linearly between its origin and
  destination map positions, over `real`. Whole runs of `animate` calls and animator
  callbacks are modelled, and the host callbacks are proved to alternate.
- **`Options`** (module `ClusterOptions`): the configuration record with its
  initial values and one setter per field, each overwriting exactly its field
  with no validation; the lens laws (set-get, get-set, set-set, commuting setters)
  are proved.

`JavaTypes` holds Java's `int`/`long` widths, the wrapping `long` subtraction, and
`Ref`, the value of a `WeakReference.get()`.

Facts about the code that a reader might not expect:

- In a run of notifications with no `setDirty` between them, a clock that never runs
  back and no overflow in `now - L`, forwarded notifications are strictly more than `L`
  apart (`CameraChange.RateLimit`). A `setDirty` to an earlier time reopens the window
  (`CameraChange.SetDirtyReopensWindow`). A fresh listener starts with `dirty = 0`. So from a fresh listener with the default 200 ms lifetime, the
  stream 0, 50, 150, 210, 250, 410 ms forwards only 210. The notification at 0 is
  inside the initial window, and 410 is exactly 200 ms after 210
  (`CameraChange.DefaultLifetimeRun`).
- `animate` accepts any list of transitions, including an empty one.
- `onAnimationCancel` does nothing; only `onAnimationEnd` returns the driver to Idle.
- The setters store any value of their parameter's type (`ClusterOptions.SettersDoNotValidate`).
- `animate` installs its `State` before it sets the animator's duration. A negative
  transition duration therefore throws from `setDuration` with the `State` installed,
  the host not told and no animator started. The driver then ignores every later
  `animate` (`TransitionsAnimation.NegativeDurationSticks`,
  `TransitionsAnimation.StuckForever`).

## Model

| member | source | states |
|---|---|---|
| JavaTypes.SubLong | library/src/com/twotoasters/clusterkraf/ClusteringOnCameraChangeListener.java:32 | `now - L` on longs is the unique long congruent to the exact difference modulo 2^64, and equals the exact difference when that fits in a long |
| ClusterOptions.Default | library/src/com/twotoasters/clusterkraf/Options.java:28-145 | a fresh Options has a positive join distance and transition duration and non-negative factor, durations, padding and lifetime, and its dirty lifetime is below its transition duration as the field comment recommends |
| ClusterOptions.DefaultValues | library/src/com/twotoasters/clusterkraf/Options.java:28-145 | the getters of a fresh Options return transition duration 300, join distance 150, dirty lifetime 200, expand factor 0, clustering on camera change enabled, info-window and zoom-to-bounds durations 300, zoom padding 75 |
| ClusterOptions.DefaultBehaviours | library/src/com/twotoasters/clusterkraf/Options.java:41-123 | default click behaviours: cluster ZOOM_TO_BOUNDS, cluster info window HIDE_INFO_WINDOW, single point SHOW_INFO_WINDOW, single-point info window HIDE_INFO_WINDOW |
| ClusterOptions.Extensionality | library/src/com/twotoasters/clusterkraf/Options.java:38-145 | an Options record is determined by what its getters return |
| ClusterOptions.Get | library/src/com/twotoasters/clusterkraf/Options.java:154-402 | each getter returns a value of its field's Java type, so its setter accepts it back |
| ClusterOptions.Set | library/src/com/twotoasters/clusterkraf/Options.java:162-293 | a setter makes its field's getter return the value given and leaves every other getter's result unchanged |
| ClusterOptions.SetIsUnique | library/src/com/twotoasters/clusterkraf/Options.java:162-293 | a setter's result is the only record with the new value in its field that agrees with the old record elsewhere |
| ClusterOptions.GetSet | library/src/com/twotoasters/clusterkraf/Options.java:162-402 | setting a field to what its getter returns changes nothing |
| ClusterOptions.SetSet | library/src/com/twotoasters/clusterkraf/Options.java:162-293 | a second call of the same setter overwrites the first |
| ClusterOptions.SetCommutes | library/src/com/twotoasters/clusterkraf/Options.java:162-293 | setters of different fields commute |
| ClusterOptions.SetClusterClickBehavior | library/src/com/twotoasters/clusterkraf/Options.java:162-164 | stores the behaviour given, nothing else changes |
| ClusterOptions.SetClusterInfoWindowClickBehavior | library/src/com/twotoasters/clusterkraf/Options.java:170-172 | stores the behaviour given, nothing else changes |
| ClusterOptions.SetClusteringOnCameraChangeListenerDirtyLifetimeMillis | library/src/com/twotoasters/clusterkraf/Options.java:177-179 | stores any long as the dirty lifetime, nothing else changes |
| ClusterOptions.SetEnableClusteringOnCameraChange | library/src/com/twotoasters/clusterkraf/Options.java:181-183 | stores the flag given, nothing else changes |
| ClusterOptions.SetExpandBoundsFactor | library/src/com/twotoasters/clusterkraf/Options.java:188-190 | stores any factor, nothing else changes |
| ClusterOptions.SetPixelDistanceToJoinCluster | library/src/com/twotoasters/clusterkraf/Options.java:231-233 | stores any int as the join distance, nothing else changes |
| ClusterOptions.SetShowInfoWindowAnimationDuration | library/src/com/twotoasters/clusterkraf/Options.java:243-245 | stores any int as the duration, nothing else changes |
| ClusterOptions.SetSinglePointClickBehavior | library/src/com/twotoasters/clusterkraf/Options.java:251-253 | stores the behaviour given, nothing else changes |
| ClusterOptions.SetSinglePointInfoWindowClickBehavior | library/src/com/twotoasters/clusterkraf/Options.java:259-261 | stores the behaviour given, nothing else changes |
| ClusterOptions.SetTransitionDuration | library/src/com/twotoasters/clusterkraf/Options.java:267-269 | stores any int as the transition duration, nothing else changes |
| ClusterOptions.SetZoomToBoundsAnimationDuration | library/src/com/twotoasters/clusterkraf/Options.java:283-285 | stores any int as the duration, nothing else changes |
| ClusterOptions.SetZoomToBoundsPadding | library/src/com/twotoasters/clusterkraf/Options.java:291-293 | stores any int as the padding, nothing else changes |
| ClusterOptions.SettersDoNotValidate | library/src/com/twotoasters/clusterkraf/Options.java:177-269 | a zero transition duration, a negative join distance or a negative dirty lifetime is stored as given, leaving those ranges |
| CameraChange.OnCameraChange | library/src/com/twotoasters/clusterkraf/ClusteringOnCameraChangeListener.java:29-40 | forwarded exactly when the host is reachable and `dirty < now - L`; a forwarded notification carries the received position and sets `dirty` to `now`; a dropped one changes nothing |
| CameraChange.SetDirty | library/src/com/twotoasters/clusterkraf/ClusteringOnCameraChangeListener.java:42-44 | `dirty` becomes exactly the given time |
| CameraChange.DirtyWindow | library/src/com/twotoasters/clusterkraf/ClusteringOnCameraChangeListener.java:30-39 | without overflow, forwarded iff the host is reachable and more than `L` ms have passed since `dirty` |
| CameraChange.InitialDropsEarly | library/src/com/twotoasters/clusterkraf/ClusteringOnCameraChangeListener.java:22-33 | a fresh listener drops every notification at a time up to `L` (where `now - L` does not overflow) and stays fresh |
| CameraChange.SetDirtySuppresses | library/src/com/twotoasters/clusterkraf/ClusteringOnCameraChangeListener.java:30-44 | after `setDirty(t)` notifications up to `t + L` are dropped without changing state, later ones reach a reachable host |
| CameraChange.ExactlyLifetimeLaterIsDropped | library/src/com/twotoasters/clusterkraf/ClusteringOnCameraChangeListener.java:32-36 | a notification exactly `L` after a forwarded one is dropped |
| CameraChange.MinLongLifetimeDropsEverything | library/src/com/twotoasters/clusterkraf/ClusteringOnCameraChangeListener.java:31-33 | with lifetime `Long.MIN_VALUE` the subtraction wraps and a non-negative `dirty` drops every notification at a non-negative time |
| CameraChange.SetDirtyReopensWindow | library/src/com/twotoasters/clusterkraf/ClusteringOnCameraChangeListener.java:30-44 | with the default lifetime, a forward at 1000 followed by `setDirty(0)` lets a notification at 1001 through, so the gap of more than `L` holds only in runs without `setDirty` |
| CameraChange.ReplayForwardsGreedily | library/src/com/twotoasters/clusterkraf/ClusteringOnCameraChangeListener.java:29-40 | over a run, `dirty` ends at the last forwarded time, and a notification is forwarded iff the host is reachable and it is more than `L` after the last notification forwarded before it (or the initial `dirty`), with its position unchanged |
| CameraChange.RateLimit | library/src/com/twotoasters/clusterkraf/ClusteringOnCameraChangeListener.java:32-36 | with a clock that never runs backwards, any two forwarded notifications are strictly more than `L` apart |
| CameraChange.DefaultLifetimeRun | library/src/com/twotoasters/clusterkraf/ClusteringOnCameraChangeListener.java:22-37 | with the default lifetime, notifications at 0, 50, 150, 210, 250, 410 ms forward only the one at 210 |
| TransitionsAnimation.Animate | library/src/com/twotoasters/clusterkraf/ClusterTransitionsAnimation.java:39-53 | while Active nothing changes and nothing is emitted; with options or host gone the driver stays Idle silently; otherwise it becomes Active with exactly the given list at value 0, and then either emits "starting" once and starts a 0 → 1 animator over the options' transition duration, or, for a negative duration, emits nothing and starts no animator because `setDuration` rejects it |
| TransitionsAnimation.OnAnimationEnd | library/src/com/twotoasters/clusterkraf/ClusterTransitionsAnimation.java:125-132 | always returns to Idle; emits "finished" iff the host is reachable |
| TransitionsAnimation.OnAnimationCancel | library/src/com/twotoasters/clusterkraf/ClusterTransitionsAnimation.java:112-116 | leaves the driver as it is and emits nothing |
| TransitionsAnimation.OnAnimationRepeat | library/src/com/twotoasters/clusterkraf/ClusterTransitionsAnimation.java:141-145 | leaves the driver as it is and emits nothing |
| TransitionsAnimation.SetValue | library/src/com/twotoasters/clusterkraf/ClusterTransitionsAnimation.java:65-67 | sets the animated value and keeps the transition list |
| TransitionsAnimation.GetPositions | library/src/com/twotoasters/clusterkraf/ClusterTransitionsAnimation.java:77-88 | one position per transition, in list order, each the interpolation of that transition at the current value |
| TransitionsAnimation.InterpolateIsWeightedAverage | library/src/com/twotoasters/clusterkraf/ClusterTransitionsAnimation.java:81-85 | each coordinate is `(1 - v)·origin + v·destination`, latitude and longitude independently |
| TransitionsAnimation.Interpolate | library/src/com/twotoasters/clusterkraf/ClusterTransitionsAnimation.java:81-85 | at value 0 the position is the origin, at value 1 the destination |
| TransitionsAnimation.InterpolateStaysBetween | library/src/com/twotoasters/clusterkraf/ClusterTransitionsAnimation.java:83-84 | for a value in [0, 1] each coordinate lies between its endpoints |
| TransitionsAnimation.InterpolateStaysOnMap | library/src/com/twotoasters/clusterkraf/ClusterTransitionsAnimation.java:83-85 | between two positions within the map's latitude and longitude ranges, every position for a value in [0, 1] is within them too, so the `LatLng` constructor keeps it unchanged |
| TransitionsAnimation.InterpolateIsLinear | library/src/com/twotoasters/clusterkraf/ClusterTransitionsAnimation.java:83-84 | equal steps in the value move the position by equal amounts |
| TransitionsAnimation.HalfwayExample | library/src/com/twotoasters/clusterkraf/ClusterTransitionsAnimation.java:83-85 | from (0, 0) to (10, 20) the position at value 0.5 is (5, 10) |
| TransitionsAnimation.RunAlternates | library/src/com/twotoasters/clusterkraf/ClusterTransitionsAnimation.java:39-132 | from a fresh driver, over any interleaving of `animate` calls and animator callbacks, "starting" and "finished" alternate beginning with "starting"; an animator runs only while an animation is installed; while the host is reachable one runs iff the last callback was "starting"; without a negative duration an animation is installed iff its animator runs |
| TransitionsAnimation.DeliverKeepsConsistent | library/src/com/twotoasters/clusterkraf/ClusterTransitionsAnimation.java:39-145 | each single `animate` call or animator callback preserves the invariant behind `RunAlternates` |
| TransitionsAnimation.StuckForever | library/src/com/twotoasters/clusterkraf/ClusterTransitionsAnimation.java:39-53 | an installed animation with no animator running never changes again and the host hears nothing more |
| TransitionsAnimation.NegativeDurationSticks | library/src/com/twotoasters/clusterkraf/ClusterTransitionsAnimation.java:39-50 | a first `animate` with a negative duration leaves the list installed, no animator running and the host not told |
| TransitionsAnimation.OneAnimation | library/src/com/twotoasters/clusterkraf/ClusterTransitionsAnimation.java:39-132 | animate, a frame, end: a fresh driver again, having emitted "starting" then "finished", or only "starting" when the host is gone by the end; with a negative duration the driver stays stuck and silent |

## Left out

- `onAnimationStart` and `onAnimationUpdate` (ClusterTransitionsAnimation.java:97-103, 154-165): marker creation and per-frame marker moves. Plotting is an unfinished TODO and the calls go to the Google Maps `Marker` API. The map reference is read only there, so it is not modelled either. `markers` is a field that only `onAnimationStart` assigns, and only when the map is live (:157-158); `onAnimationEnd` never resets it. With a live map and a non-empty list, `onAnimationUpdate` dereferences a null `Marker` at :101. With no map it uses whatever array the last start with a map left: a null array at :100 if there was none, a null `Marker` at :101 if that array is non-empty, nothing if it is empty. The `Frame` input models only the animator's reflective `setValue`, not these marker updates.
- `animate` never hands `Options.transitionInterpolator` to the animator (:45-50), so the animator runs with its own default interpolator.
- TransitionsAnimation.Animate: the inner `State` keeps a reference to the caller's `ArrayList` without copying it (:57, :62, :69-71). The model's `seq` is a snapshot taken at the call, so the list is assumed unchanged after `animate`; a caller's later edits would show up in `getPositions` and `getCount` and are not modelled.
- The animator: `ObjectAnimator` frame timing and the reflective `"value"` property. The model records the animator `animate` starts (0 → 1 over the transition duration), takes each frame's value as an input, and records only whether the animator is still running. The `IllegalArgumentException` from a negative duration is a `Rejected` outcome; what the caller of `animate` does with it is not part of this model.
- `Options.transitionInterpolator` and its setter and getter: `Interpolator` is a foreign Android class.
- The opaque collaborator fields of `Options` and their accessors (`setInfoWindowDownstreamAdapter`, `getInfoWindowDownstreamAdapter`, `setMarkerOptionsChooser`, `setOnInfoWindowClickDownstreamListener`, `setOnMarkerClickDownstreamListener`, `setProcessingListener` and their getters): the library only passes them on.
- Floating point: the `float` animated value, the `double` coordinates and the `double` `expandBoundsFactor` are `real`. The endpoint facts hold exactly here but need not after rounding, and NaN and the infinities are not modelled.
- TransitionsAnimation.Interpolate: the Google Maps `LatLng` constructor, which clamps the latitude and wraps the longitude, is not part of this model. `InterpolateStaysOnMap` shows it changes nothing for a value in [0, 1], which is all the default 0 → 1 animator produces. A value outside [0, 1] is not covered.
- `System.currentTimeMillis()` is the `now` argument. A `WeakReference.get()` is a `Ref` or a `hostPresent` flag, with no garbage-collection semantics; `animate` reads the options reference twice, and the model reads it once.
- The clusterer and the transition planner are not part of this model; a transition is only its origin and destination map positions.
- CameraChange.ReplayForwardsGreedily: assumes `now - L` fits in a long for every notification that the options do not change during the run, and that there is no `setDirty` call during the run; MinLongLifetimeDropsEverything shows what the wrap-around does otherwise.
- CameraChange.RateLimit: assumes no overflow in `now - L`, a clock that never runs backwards, and no `setDirty` call during the run (`SetDirtyReopensWindow` shows one breaking the gap).
- ClusterOptions.Set: the four enum setters (Options.java:162, 170, 251, 259) also store `null`, which their getters then return; the model's behaviour types have no null, and nothing modelled reads these four fields.
- CameraChange.InitialDropsEarly: stated only where `now - L` fits in a long; MinLongLifetimeDropsEverything shows the wrap-around.
- TransitionsAnimation.RunAlternates: assumes a cleared host reference stays cleared. It also assumes the animator calls back only while it runs, so a callback with no animator running is ignored.

=== FILE: camera_listener.dfy ===
/**
 The camera-change debouncer (`ClusteringOnCameraChangeListener`). Its only
 state is the `dirty` timestamp, initially 0. A camera notification at time
 `now` reaches the host only when `dirty < now - L`, with `L` the options'
 dirty lifetime and the subtraction a Java `long` subtraction, and only when
 the host is still reachable; a forwarded notification sets `dirty := now`.

 The wall clock becomes the `now` argument and the weak reference to the host
 becomes the `hostPresent` flag.
 */
module CameraChange {
  import opened JavaTypes
  import opened ClusterOptions

  /** The listener's state. */
  datatype Listener = Listener(dirty: Int64)

  /** A newly constructed listener. */
  const Initial: Listener := Listener(0)

  /** What the host receives from one notification. */
  datatype Forward<P> = Dropped | Forwarded(position: P)

  datatype Step<P> = Step(listener: Listener, forward: Forward<P>)

  function Lifetime(options: Options): Int64 {
    options.clusteringOnCameraChangeListenerDirtyLifetimeMillis
  }

  /**
   `onCameraChange(newPosition)` at time `now`. The camera position is opaque:
   the listener hands it on untouched.
   */
  function OnCameraChange<P>(l: Listener, options: Options, now: Int64, hostPresent: bool, newPosition: P): (r: Step<P>)
    ensures r.forward.Forwarded? <==> hostPresent && l.dirty < SubLong(now, Lifetime(options))
    ensures r.forward.Forwarded? ==> r.forward.position == newPosition && r.listener.dirty == now
    ensures r.forward.Dropped? ==> r.listener == l
  {
    var notDirtyAfter := SubLong(now, Lifetime(options));
    if l.dirty < notDirtyAfter && hostPresent then
      Step(Listener(now), Forwarded(newPosition))
    else
      Step(l, Dropped)
  }

  /** `setDirty(when)`. */
  function SetDirty(l: Listener, when: Int64): (r: Listener)
    ensures r.dirty == when
  {
    Listener(when)
  }

  /**
   Without overflow in `now - L`, a notification is forwarded exactly when
   the host is reachable and more than `L` milliseconds have passed since
   `dirty`.
   */
  lemma DirtyWindow<P>(l: Listener, options: Options, now: Int64, hostPresent: bool, p: P)
    requires InLong(now - Lifetime(options))
    ensures OnCameraChange(l, options, now, hostPresent, p).forward.Forwarded?
        <==> hostPresent && now - l.dirty > Lifetime(options)
  {
  }

  /**
   A fresh listener drops every notification up to time `L`, wherever
   `now - L` does not overflow.
   */
  lemma InitialDropsEarly<P>(options: Options, now: Int64, hostPresent: bool, p: P)
    requires now <= Lifetime(options) && InLong(now - Lifetime(options))
    ensures OnCameraChange(Initial, options, now, hostPresent, p) == Step(Initial, Dropped)
  {
    DirtyWindow(Initial, options, now, hostPresent, p);
  }

  /**
   After `setDirty(t)` every notification up to `t + L` is dropped and leaves
   the listener as it is, and every later one reaches a reachable host.
   */
  lemma SetDirtySuppresses<P>(l: Listener, t: Int64, options: Options, now: Int64, hostPresent: bool, p: P)
    requires InLong(now - Lifetime(options))
    ensures now <= t + Lifetime(options) ==>
      OnCameraChange(SetDirty(l, t), options, now, hostPresent, p) == Step(SetDirty(l, t), Dropped)
    ensures now > t + Lifetime(options) && hostPresent ==>
      OnCameraChange(SetDirty(l, t), options, now, hostPresent, p) == Step(Listener(now), Forwarded(p))
  {
    DirtyWindow(SetDirty(l, t), options, now, hostPresent, p);
  }

  /**
   A notification exactly `L` after a forwarded one is dropped: forwarded
   notifications are strictly more than `L` apart.
   */
  lemma ExactlyLifetimeLaterIsDropped<P>(l: Listener, options: Options, t: Int64, p: P, q: P)
    requires InLong(t + Lifetime(options))
    requires OnCameraChange(l, options, t, true, p).forward.Forwarded?
    ensures OnCameraChange(OnCameraChange(l, options, t, true, p).listener, options,
                           t + Lifetime(options), true, q).forward.Dropped?
  {
    var l' := OnCameraChange(l, options, t, true, p).listener;
    DirtyWindow(l', options, t + Lifetime(options), true, q);
  }

  /**
   The subtraction wraps: with a dirty lifetime of `Long.MIN_VALUE`,
   `now - L` overflows to a negative number, so a listener whose `dirty` is
   not negative drops every notification at a non-negative time, although
   the exact difference would put them all outside the window.
   */
  lemma MinLongLifetimeDropsEverything<P>(l: Listener, options: Options, now: Int64, hostPresent: bool, p: P)
    requires Lifetime(options) == MinLong
    requires l.dirty >= 0 && now >= 0
    ensures l.dirty < now - Lifetime(options)
    ensures OnCameraChange(l, options, now, hostPresent, p) == Step(l, Dropped)
  {
  }

  /**
   `setDirty` may move `dirty` backwards, which reopens the window: with the
   default lifetime, a notification forwarded at 1000 followed by
   `setDirty(0)` lets the next one through at 1001. Forwarded notifications
   are more than `L` apart only in a run without `setDirty`.
   */
  lemma SetDirtyReopensWindow()
    ensures var first := OnCameraChange(Initial, Default(), 1000, true, 0);
      && first.forward == Forwarded(0)
      && OnCameraChange(SetDirty(first.listener, 0), Default(), 1001, true, 1).forward == Forwarded(1)
  {
  }

  /** One camera notification as the listener sees it. */
  datatype CameraEvent<P> = CameraEvent(now: Int64, hostPresent: bool, position: P)

  /** Feeds `events` to the listener in order, with fixed options. */
  function Replay<P>(l: Listener, options: Options, events: seq<CameraEvent<P>>): (r: (Listener, seq<Forward<P>>))
    ensures |r.1| == |events|
    decreases |events|
  {
    if events == [] then (l, [])
    else
      var n := |events| - 1;
      var (before, forwards) := Replay(l, options, events[..n]);
      var step := OnCameraChange(before, options, events[n].now, events[n].hostPresent, events[n].position);
      (step.listener, forwards + [step.forward])
  }

  /**
   Reference reading of a run: the time of the last forwarded notification,
   or the initial `dirty` when none was forwarded.
   */
  function LastForwarded<P>(initial: int, events: seq<CameraEvent<P>>, forwards: seq<Forward<P>>): int
    requires |forwards| == |events|
    decreases |events|
  {
    if events == [] then initial
    else if forwards[|events| - 1].Forwarded? then events[|events| - 1].now
    else LastForwarded(initial, events[..|events| - 1], forwards[..|events| - 1])
  }

  predicate NoOverflow<P>(options: Options, events: seq<CameraEvent<P>>) {
    forall i :: 0 <= i < |events| ==> InLong(events[i].now - Lifetime(options))
  }

  predicate NonDecreasing<P>(events: seq<CameraEvent<P>>) {
    forall i, j :: 0 <= i < j < |events| ==> events[i].now <= events[j].now
  }

  /**
   The whole behaviour of a run: the listener ends with `dirty` equal to the
   last forwarded time (or its initial value), and a notification is
   forwarded exactly when the host is reachable and it comes more than `L`
   after the last notification forwarded before it; forwarded positions are
   the received ones.
   */
  lemma {:induction false} ReplayForwardsGreedily<P>(l: Listener, options: Options, events: seq<CameraEvent<P>>)
    requires NoOverflow(options, events)
    ensures var (l', forwards) := Replay(l, options, events);
      && l'.dirty == LastForwarded(l.dirty, events, forwards)
      && forall j :: 0 <= j < |events| ==>
           (forwards[j].Forwarded? <==>
              events[j].hostPresent
              && events[j].now - LastForwarded(l.dirty, events[..j], forwards[..j]) > Lifetime(options))
           && (forwards[j].Forwarded? ==> forwards[j].position == events[j].position)
    decreases |events|
  {
    if events != [] {
      var n := |events| - 1;
      var (before, forwards0) := Replay(l, options, events[..n]);
      assert NoOverflow(options, events[..n]) by {
        forall i | 0 <= i < n ensures InLong(events[..n][i].now - Lifetime(options)) {
          assert events[..n][i] == events[i];
        }
      }
      ReplayForwardsGreedily(l, options, events[..n]);
      var e := events[n];
      DirtyWindow(before, options, e.now, e.hostPresent, e.position);
      var (l', forwards) := Replay(l, options, events);
      assert forwards == forwards0 + [forwards[n]];
      assert forwards[..n] == forwards0;
      forall j | 0 <= j < |events|
        ensures forwards[j].Forwarded? <==>
              events[j].hostPresent
              && events[j].now - LastForwarded(l.dirty, events[..j], forwards[..j]) > Lifetime(options)
        ensures forwards[j].Forwarded? ==> forwards[j].position == events[j].position
      {
        if j < n {
          assert events[..j] == events[..n][..j];
          assert forwards[..j] == forwards0[..j];
          assert events[j] == events[..n][j];
        } else {
          assert events[..j] == events[..n];
        }
      }
    }
  }

  /** With a clock that never runs backwards, the last forwarded time is the latest forwarded time. */
  lemma {:induction false} LastForwardedIsLatest<P>(initial: int, events: seq<CameraEvent<P>>, forwards: seq<Forward<P>>, i: nat)
    requires |forwards| == |events| && NonDecreasing(events)
    requires i < |events| && forwards[i].Forwarded?
    ensures LastForwarded(initial, events, forwards) >= events[i].now
    decreases |events|
  {
    var n := |events| - 1;
    if !forwards[n].Forwarded? {
      assert i < n;
      assert events[..n][i] == events[i] && forwards[..n][i] == forwards[i];
      LastForwardedIsLatest(initial, events[..n], forwards[..n], i);
    }
  }

  /**
   The rate limit: for a clock that never runs backwards, any two forwarded
   notifications are strictly more than `L` milliseconds apart.
   */
  lemma RateLimit<P>(l: Listener, options: Options, events: seq<CameraEvent<P>>, i: nat, j: nat)
    requires NoOverflow(options, events) && NonDecreasing(events)
    requires i < j < |events|
    requires Replay(l, options, events).1[i].Forwarded? && Replay(l, options, events).1[j].Forwarded?
    ensures events[j].now - events[i].now > Lifetime(options)
  {
    var forwards := Replay(l, options, events).1;
    ReplayForwardsGreedily(l, options, events);
    assert events[..j][i] == events[i] && forwards[..j][i] == forwards[i];
    LastForwardedIsLatest(l.dirty, events[..j], forwards[..j], i);
  }

  /** One more notification extends a run by one step. */
  lemma ReplayStep<P>(l: Listener, options: Options, events: seq<CameraEvent<P>>, e: CameraEvent<P>)
    returns (r: (Listener, seq<Forward<P>>))
    ensures r == Replay(l, options, events + [e])
    ensures var step := OnCameraChange(Replay(l, options, events).0, options, e.now, e.hostPresent, e.position);
      r == (step.listener, Replay(l, options, events).1 + [step.forward])
  {
    assert (events + [e])[..|events|] == events;
    r := Replay(l, options, events + [e]);
  }

  /**
   A run from a fresh listener with the default 200 ms lifetime and
   notifications at 0, 50, 150, 210, 250 and 410 ms forwards only the one at
   210 ms: the one at 0 is inside the initial window, and the one at 410 ms
   is exactly 200 ms after 210.
   */
  lemma DefaultLifetimeRun()
    ensures var events := [CameraEvent(0, true, 0), CameraEvent(50, true, 1), CameraEvent(150, true, 2),
                           CameraEvent(210, true, 3), CameraEvent(250, true, 4), CameraEvent(410, true, 5)];
      && Replay(Initial, Default(), events).0 == Listener(210)
      && Replay(Initial, Default(), events).1 == [Dropped, Dropped, Dropped, Forwarded(3), Dropped, Dropped]
  {
    var o := Default();
    assert Lifetime(o) == 200;
    var e0: seq<CameraEvent<int>> := [];
    var e1 := e0 + [CameraEvent(0, true, 0)];
    var e2 := e1 + [CameraEvent(50, true, 1)];
    var e3 := e2 + [CameraEvent(150, true, 2)];
    var e4 := e3 + [CameraEvent(210, true, 3)];
    var e5 := e4 + [CameraEvent(250, true, 4)];
    var e6 := e5 + [CameraEvent(410, true, 5)];
    assert Replay(Initial, o, e0) == (Initial, []);
    var r1 := ReplayStep(Initial, o, e0, CameraEvent(0, true, 0));
    assert r1.0 == Initial && r1.1 == [Dropped];
    var r2 := ReplayStep(Initial, o, e1, CameraEvent(50, true, 1));
    assert r2.0 == Initial && r2.1 == [Dropped, Dropped];
    var r3 := ReplayStep(Initial, o, e2, CameraEvent(150, true, 2));
    assert r3.0 == Initial && r3.1 == [Dropped, Dropped, Dropped];
    var r4 := ReplayStep(Initial, o, e3, CameraEvent(210, true, 3));
    assert r4.0 == Listener(210) && r4.1 == [Dropped, Dropped, Dropped, Forwarded(3)];
    var r5 := ReplayStep(Initial, o, e4, CameraEvent(250, true, 4));
    assert r5.0 == Listener(210) && r5.1 == [Dropped, Dropped, Dropped, Forwarded(3), Dropped];
    var r6 := ReplayStep(Initial, o, e5, CameraEvent(410, true, 5));
    assert r6.0 == Listener(210) && r6.1 == [Dropped, Dropped, Dropped, Forwarded(3), Dropped, Dropped];
    assert e6 == [CameraEvent(0, true, 0), CameraEvent(50, true, 1), CameraEvent(150, true, 2),
                  CameraEvent(210, true, 3), CameraEvent(250, true, 4), CameraEvent(410, true, 5)];
  }
}

=== FILE: java_types.dfy ===
/**
 Java's fixed-width integers and weak references, as the clustering library
 uses them. Dafny integers are unbounded, so the widths of `int` and `long`
 are subset types and the one place where the library subtracts two longs
 wraps around explicitly, as the JVM does.
 */
module JavaTypes {

  const TwoTo64: int := 0x1_0000_0000_0000_0000

  const MinInt: int := -0x8000_0000
  const MaxInt: int := 0x7fff_ffff
  const MinLong: int := -0x8000_0000_0000_0000
  const MaxLong: int := 0x7fff_ffff_ffff_ffff

  /** A Java `int`. */
  type Int32 = x: int | MinInt <= x <= MaxInt

  /** A Java `long`. */
  type Int64 = x: int | MinLong <= x <= MaxLong

  predicate InLong(x: int) {
    MinLong <= x <= MaxLong
  }

  /**
   Java's `long - long`. Both operands are longs, so the exact difference lies
   strictly between -2^64 and 2^64 and wrapping it to 64 bits adds or removes
   at most one 2^64. The result is the unique long congruent to the exact
   difference modulo 2^64.
   */
  function SubLong(a: Int64, b: Int64): (r: Int64)
    ensures (a - b - r) % TwoTo64 == 0
    ensures InLong(a - b) ==> r == a - b
  {
    var d := a - b;
    if d > MaxLong then d - TwoTo64
    else if d < MinLong then d + TwoTo64
    else d
  }

  /** What `WeakReference.get()` returns: the referent, or null once it is gone. */
  datatype Ref<+T> = Null | Live(value: T)
}

=== FILE: options.dfy ===
/**
 The configuration record of the clustering library (`Options`): its initial
 values, one setter per field that overwrites that field and nothing else,
 and package-private getters. Setters validate nothing.

 The Java class is mutable; here an `Options` value is immutable and every
 setter returns the updated record. The getters are the datatype's fields.
 */
module ClusterOptions {
  import opened JavaTypes

  datatype ClusterClickBehavior = ZoomToBounds | ShowInfoWindow | NoOp

  datatype ClusterInfoWindowClickBehavior = ZoomToBounds | HideInfoWindow | NoOp

  datatype SinglePointClickBehavior = ShowInfoWindow | NoOp

  datatype SinglePointInfoWindowClickBehavior = HideInfoWindow | NoOp

  const DefaultTransitionDuration: Int32 := 300
  const DefaultPixelDistanceToJoinCluster: Int32 := 150
  const DefaultExpandBoundsFactor: real := 0.0
  const DefaultShowInfoWindowAnimationDuration: Int32 := 300
  const DefaultZoomToBoundsAnimationDuration: Int32 := 300
  const DefaultDirtyLifetimeMillis: Int64 := 200
  const DefaultZoomToBoundsPadding: Int32 := 75

  /**
   The fields of `Options` that the library itself reads. Java `int` fields are
   `Int32`, the one `long` is `Int64`, the `double` is a `real`.
   */
  datatype Options = Options(
    clusterClickBehavior: ClusterClickBehavior,
    clusterInfoWindowClickBehavior: ClusterInfoWindowClickBehavior,
    clusteringOnCameraChangeListenerDirtyLifetimeMillis: Int64,
    enableClusteringOnCameraChange: bool,
    expandBoundsFactor: real,
    pixelDistanceToJoinCluster: Int32,
    showInfoWindowAnimationDuration: Int32,
    singlePointClickBehavior: SinglePointClickBehavior,
    singlePointInfoWindowClickBehavior: SinglePointInfoWindowClickBehavior,
    transitionDuration: Int32,
    zoomToBoundsAnimationDuration: Int32,
    zoomToBoundsPadding: Int32)

  /** Names the fields, so that "every other field" can be said once. */
  datatype Field =
    | ClusterClick
    | ClusterInfoWindowClick
    | DirtyLifetime
    | EnableClusteringOnCameraChange
    | ExpandBoundsFactor
    | PixelDistanceToJoinCluster
    | ShowInfoWindowAnimationDuration
    | SinglePointClick
    | SinglePointInfoWindowClick
    | TransitionDuration
    | ZoomToBoundsAnimationDuration
    | ZoomToBoundsPadding

  /** The value of any one field. */
  datatype Value =
    | ClusterClickValue(clusterClick: ClusterClickBehavior)
    | ClusterInfoWindowClickValue(clusterInfoWindowClick: ClusterInfoWindowClickBehavior)
    | SinglePointClickValue(singlePointClick: SinglePointClickBehavior)
    | SinglePointInfoWindowClickValue(singlePointInfoWindowClick: SinglePointInfoWindowClickBehavior)
    | IntValue(int32: int)
    | LongValue(int64: int)
    | DoubleValue(double: real)
    | BoolValue(flag: bool)

  /** The getter of field `f`. */
  function Get(o: Options, f: Field): (r: Value)
    ensures Fits(f, r)
  {
    match f
    case ClusterClick => ClusterClickValue(o.clusterClickBehavior)
    case ClusterInfoWindowClick => ClusterInfoWindowClickValue(o.clusterInfoWindowClickBehavior)
    case DirtyLifetime => LongValue(o.clusteringOnCameraChangeListenerDirtyLifetimeMillis)
    case EnableClusteringOnCameraChange => BoolValue(o.enableClusteringOnCameraChange)
    case ExpandBoundsFactor => DoubleValue(o.expandBoundsFactor)
    case PixelDistanceToJoinCluster => IntValue(o.pixelDistanceToJoinCluster)
    case ShowInfoWindowAnimationDuration => IntValue(o.showInfoWindowAnimationDuration)
    case SinglePointClick => SinglePointClickValue(o.singlePointClickBehavior)
    case SinglePointInfoWindowClick => SinglePointInfoWindowClickValue(o.singlePointInfoWindowClickBehavior)
    case TransitionDuration => IntValue(o.transitionDuration)
    case ZoomToBoundsAnimationDuration => IntValue(o.zoomToBoundsAnimationDuration)
    case ZoomToBoundsPadding => IntValue(o.zoomToBoundsPadding)
  }

  /** `v` has the Java type of field `f`, without null: the setter of `f` accepts it. */
  predicate Fits(f: Field, v: Value) {
    match f
    case ClusterClick => v.ClusterClickValue?
    case ClusterInfoWindowClick => v.ClusterInfoWindowClickValue?
    case DirtyLifetime => v.LongValue? && MinLong <= v.int64 <= MaxLong
    case EnableClusteringOnCameraChange => v.BoolValue?
    case ExpandBoundsFactor => v.DoubleValue?
    case SinglePointClick => v.SinglePointClickValue?
    case SinglePointInfoWindowClick => v.SinglePointInfoWindowClickValue?
    case _ => v.IntValue? && MinInt <= v.int32 <= MaxInt
  }

  /** `r` agrees with `o` on every field except possibly `f`. */
  predicate OnlyChanged(o: Options, r: Options, f: Field) {
    forall g: Field :: g != f ==> Get(r, g) == Get(o, g)
  }

  /**
   The ranges this model takes as sensible for the options: a positive join
   distance and transition duration, non-negative factors, durations and
   padding. The library states no ranges for them, and nothing in `Options`
   enforces any.
   */
  predicate Sensible(o: Options) {
    && o.pixelDistanceToJoinCluster > 0
    && o.expandBoundsFactor >= 0.0
    && o.transitionDuration > 0
    && o.showInfoWindowAnimationDuration >= 0
    && o.zoomToBoundsAnimationDuration >= 0
    && o.zoomToBoundsPadding >= 0
    && o.clusteringOnCameraChangeListenerDirtyLifetimeMillis >= 0
  }

  /**
   The field comment on the dirty lifetime recommends setting it slightly
   below the transition duration.
   */
  predicate DirtyLifetimeBelowTransition(o: Options) {
    0 <= o.clusteringOnCameraChangeListenerDirtyLifetimeMillis < o.transitionDuration
  }

  /** A freshly constructed `Options`. */
  function Default(): (o: Options)
    ensures Sensible(o)
    ensures DirtyLifetimeBelowTransition(o)
  {
    Options(
      clusterClickBehavior := ClusterClickBehavior.ZoomToBounds,
      clusterInfoWindowClickBehavior := ClusterInfoWindowClickBehavior.HideInfoWindow,
      clusteringOnCameraChangeListenerDirtyLifetimeMillis := DefaultDirtyLifetimeMillis,
      enableClusteringOnCameraChange := true,
      expandBoundsFactor := DefaultExpandBoundsFactor,
      pixelDistanceToJoinCluster := DefaultPixelDistanceToJoinCluster,
      showInfoWindowAnimationDuration := DefaultShowInfoWindowAnimationDuration,
      singlePointClickBehavior := SinglePointClickBehavior.ShowInfoWindow,
      singlePointInfoWindowClickBehavior := SinglePointInfoWindowClickBehavior.HideInfoWindow,
      transitionDuration := DefaultTransitionDuration,
      zoomToBoundsAnimationDuration := DefaultZoomToBoundsAnimationDuration,
      zoomToBoundsPadding := DefaultZoomToBoundsPadding)
  }

  /** The initial values, read back through the getters. */
  lemma DefaultValues()
    ensures Get(Default(), TransitionDuration) == IntValue(300)
    ensures Get(Default(), PixelDistanceToJoinCluster) == IntValue(150)
    ensures Get(Default(), DirtyLifetime) == LongValue(200)
    ensures Get(Default(), ExpandBoundsFactor) == DoubleValue(0.0)
    ensures Get(Default(), EnableClusteringOnCameraChange) == BoolValue(true)
    ensures Get(Default(), ShowInfoWindowAnimationDuration) == IntValue(300)
    ensures Get(Default(), ZoomToBoundsAnimationDuration) == IntValue(300)
    ensures Get(Default(), ZoomToBoundsPadding) == IntValue(75)
  {
  }

  /** The default click behaviours of clusters and single points. */
  lemma DefaultBehaviours()
    ensures Get(Default(), ClusterClick) == ClusterClickValue(ClusterClickBehavior.ZoomToBounds)
    ensures Get(Default(), ClusterInfoWindowClick) == ClusterInfoWindowClickValue(ClusterInfoWindowClickBehavior.HideInfoWindow)
    ensures Get(Default(), SinglePointClick) == SinglePointClickValue(SinglePointClickBehavior.ShowInfoWindow)
    ensures Get(Default(), SinglePointInfoWindowClick) == SinglePointInfoWindowClickValue(SinglePointInfoWindowClickBehavior.HideInfoWindow)
  {
  }

  /** Two records with the same value in every field are the same record. */
  lemma Extensionality(a: Options, b: Options)
    requires forall f: Field :: Get(a, f) == Get(b, f)
    ensures a == b
  {
    assert Get(a, ClusterClick) == Get(b, ClusterClick);
    assert Get(a, ClusterInfoWindowClick) == Get(b, ClusterInfoWindowClick);
    assert Get(a, DirtyLifetime) == Get(b, DirtyLifetime);
    assert Get(a, EnableClusteringOnCameraChange) == Get(b, EnableClusteringOnCameraChange);
    assert Get(a, ExpandBoundsFactor) == Get(b, ExpandBoundsFactor);
    assert Get(a, PixelDistanceToJoinCluster) == Get(b, PixelDistanceToJoinCluster);
    assert Get(a, ShowInfoWindowAnimationDuration) == Get(b, ShowInfoWindowAnimationDuration);
    assert Get(a, SinglePointClick) == Get(b, SinglePointClick);
    assert Get(a, SinglePointInfoWindowClick) == Get(b, SinglePointInfoWindowClick);
    assert Get(a, TransitionDuration) == Get(b, TransitionDuration);
    assert Get(a, ZoomToBoundsAnimationDuration) == Get(b, ZoomToBoundsAnimationDuration);
    assert Get(a, ZoomToBoundsPadding) == Get(b, ZoomToBoundsPadding);
  }

  /**
   Any setter: overwrite field `f` with `v`, keep everything else. The Java
   type of the parameter, without null, is the only restriction on `v`.
   */
  function Set(o: Options, f: Field, v: Value): (r: Options)
    requires Fits(f, v)
    ensures Get(r, f) == v
    ensures OnlyChanged(o, r, f)
  {
    match f
    case ClusterClick => o.(clusterClickBehavior := v.clusterClick)
    case ClusterInfoWindowClick => o.(clusterInfoWindowClickBehavior := v.clusterInfoWindowClick)
    case DirtyLifetime => o.(clusteringOnCameraChangeListenerDirtyLifetimeMillis := v.int64)
    case EnableClusteringOnCameraChange => o.(enableClusteringOnCameraChange := v.flag)
    case ExpandBoundsFactor => o.(expandBoundsFactor := v.double)
    case PixelDistanceToJoinCluster => o.(pixelDistanceToJoinCluster := v.int32)
    case ShowInfoWindowAnimationDuration => o.(showInfoWindowAnimationDuration := v.int32)
    case SinglePointClick => o.(singlePointClickBehavior := v.singlePointClick)
    case SinglePointInfoWindowClick => o.(singlePointInfoWindowClickBehavior := v.singlePointInfoWindowClick)
    case TransitionDuration => o.(transitionDuration := v.int32)
    case ZoomToBoundsAnimationDuration => o.(zoomToBoundsAnimationDuration := v.int32)
    case ZoomToBoundsPadding => o.(zoomToBoundsPadding := v.int32)
  }

  /** A setter's result is the only record that has `v` in `f` and agrees with `o` elsewhere. */
  lemma SetIsUnique(o: Options, f: Field, v: Value, r: Options)
    requires Fits(f, v)
    requires Get(r, f) == v && OnlyChanged(o, r, f)
    ensures r == Set(o, f, v)
  {
    var s := Set(o, f, v);
    forall g: Field ensures Get(r, g) == Get(s, g) {
    }
    Extensionality(r, s);
  }

  /** Setting a field to the value it already holds changes nothing. */
  lemma GetSet(o: Options, f: Field)
    ensures Fits(f, Get(o, f)) && Set(o, f, Get(o, f)) == o
  {
  }

  /** A second set of the same field overwrites the first. */
  lemma SetSet(o: Options, f: Field, v: Value, w: Value)
    requires Fits(f, v) && Fits(f, w)
    ensures Set(Set(o, f, v), f, w) == Set(o, f, w)
  {
  }

  /** Setters of different fields commute. */
  lemma SetCommutes(o: Options, f: Field, v: Value, g: Field, w: Value)
    requires f != g && Fits(f, v) && Fits(g, w)
    ensures Set(Set(o, f, v), g, w) == Set(Set(o, g, w), f, v)
  {
  }

  // The named setters of `Options`, one per field the library reads.

  function SetClusterClickBehavior(o: Options, b: ClusterClickBehavior): (r: Options)
    ensures r.clusterClickBehavior == b
    ensures OnlyChanged(o, r, ClusterClick)
  {
    Set(o, ClusterClick, ClusterClickValue(b))
  }

  function SetClusterInfoWindowClickBehavior(o: Options, b: ClusterInfoWindowClickBehavior): (r: Options)
    ensures r.clusterInfoWindowClickBehavior == b
    ensures OnlyChanged(o, r, ClusterInfoWindowClick)
  {
    Set(o, ClusterInfoWindowClick, ClusterInfoWindowClickValue(b))
  }

  function SetClusteringOnCameraChangeListenerDirtyLifetimeMillis(o: Options, millis: Int64): (r: Options)
    ensures r.clusteringOnCameraChangeListenerDirtyLifetimeMillis == millis
    ensures OnlyChanged(o, r, DirtyLifetime)
  {
    Set(o, DirtyLifetime, LongValue(millis))
  }

  function SetEnableClusteringOnCameraChange(o: Options, enable: bool): (r: Options)
    ensures r.enableClusteringOnCameraChange == enable
    ensures OnlyChanged(o, r, EnableClusteringOnCameraChange)
  {
    Set(o, EnableClusteringOnCameraChange, BoolValue(enable))
  }

  function SetExpandBoundsFactor(o: Options, factor: real): (r: Options)
    ensures r.expandBoundsFactor == factor
    ensures OnlyChanged(o, r, ExpandBoundsFactor)
  {
    Set(o, ExpandBoundsFactor, DoubleValue(factor))
  }

  function SetPixelDistanceToJoinCluster(o: Options, pixels: Int32): (r: Options)
    ensures r.pixelDistanceToJoinCluster == pixels
    ensures OnlyChanged(o, r, PixelDistanceToJoinCluster)
  {
    Set(o, PixelDistanceToJoinCluster, IntValue(pixels))
  }

  function SetShowInfoWindowAnimationDuration(o: Options, millis: Int32): (r: Options)
    ensures r.showInfoWindowAnimationDuration == millis
    ensures OnlyChanged(o, r, ShowInfoWindowAnimationDuration)
  {
    Set(o, ShowInfoWindowAnimationDuration, IntValue(millis))
  }

  function SetSinglePointClickBehavior(o: Options, b: SinglePointClickBehavior): (r: Options)
    ensures r.singlePointClickBehavior == b
    ensures OnlyChanged(o, r, SinglePointClick)
  {
    Set(o, SinglePointClick, SinglePointClickValue(b))
  }

  function SetSinglePointInfoWindowClickBehavior(o: Options, b: SinglePointInfoWindowClickBehavior): (r: Options)
    ensures r.singlePointInfoWindowClickBehavior == b
    ensures OnlyChanged(o, r, SinglePointInfoWindowClick)
  {
    Set(o, SinglePointInfoWindowClick, SinglePointInfoWindowClickValue(b))
  }

  function SetTransitionDuration(o: Options, millis: Int32): (r: Options)
    ensures r.transitionDuration == millis
    ensures OnlyChanged(o, r, TransitionDuration)
  {
    Set(o, TransitionDuration, IntValue(millis))
  }

  function SetZoomToBoundsAnimationDuration(o: Options, millis: Int32): (r: Options)
    ensures r.zoomToBoundsAnimationDuration == millis
    ensures OnlyChanged(o, r, ZoomToBoundsAnimationDuration)
  {
    Set(o, ZoomToBoundsAnimationDuration, IntValue(millis))
  }

  function SetZoomToBoundsPadding(o: Options, pixels: Int32): (r: Options)
    ensures r.zoomToBoundsPadding == pixels
    ensures OnlyChanged(o, r, ZoomToBoundsPadding)
  {
    Set(o, ZoomToBoundsPadding, IntValue(pixels))
  }

  /**
   The setters validate nothing: a zero transition duration, a negative join
   distance or a negative dirty lifetime is stored as given and takes the
   record outside the sensible ranges.
   */
  lemma SettersDoNotValidate(o: Options)
    ensures SetTransitionDuration(o, 0).transitionDuration == 0
    ensures !Sensible(SetTransitionDuration(o, 0))
    ensures SetPixelDistanceToJoinCluster(o, -1).pixelDistanceToJoinCluster == -1
    ensures !Sensible(SetPixelDistanceToJoinCluster(o, -1))
    ensures SetClusteringOnCameraChangeListenerDirtyLifetimeMillis(o, -1).clusteringOnCameraChangeListenerDirtyLifetimeMillis == -1
    ensures !Sensible(SetClusteringOnCameraChangeListenerDirtyLifetimeMillis(o, -1))
  {
  }
}

=== FILE: transitions_animation.dfy ===
/**
 The transition animation driver (`ClusterTransitionsAnimation`). It is Idle
 while its `state` field is null and Active while it holds a `State`: the
 list of cluster transitions being animated and the animated value that the
 animator moves from 0 to 1. The host hears `onClusterTransitionStarting`
 when an animation begins and `onClusterTransitionFinished` when it ends.

 The weak references to the options and the host become a `Ref<Options>` and
 a `hostPresent` flag; the host callbacks become a returned list of events;
 the animator becomes a description of the animator the driver starts.
 Positions are over `real`, so there is no floating-point rounding.
 */
module TransitionsAnimation {
  import opened JavaTypes
  import opened ClusterOptions

  /** A geographic position in degrees. */
  datatype LatLng = LatLng(latitude: real, longitude: real)

  /**
   A cluster transition, reduced to what the animation reads of it: the map
   position of its origin cluster and of its destination cluster.
   */
  datatype ClusterTransition = ClusterTransition(origin: LatLng, destination: LatLng)

  /** The inner `State`: the transitions and the current animated value. */
  datatype State = State(transitions: seq<ClusterTransition>, value: real)

  /** The driver: Idle when `state == null`. */
  datatype Animation = Idle | Active(state: State)

  /** The calls the driver makes on its host. */
  datatype HostCallback = TransitionStarting | TransitionFinished

  /** The animator `animate` starts: the `value` property runs `from` to `to` over `duration` ms. */
  datatype Animator = Animator(from: real, to: real, duration: Int32)

  /**
   What became of the animator: none was made, it was started, or
   `setDuration` rejected a negative duration with an
   `IllegalArgumentException` that reaches the caller of `animate`.
   */
  datatype AnimatorOutcome = NotStarted | Started(animator: Animator) | Rejected(duration: Int32)

  /** What one `animate` call does. */
  datatype AnimateOutcome = AnimateOutcome(animation: Animation, callbacks: seq<HostCallback>, animator: AnimatorOutcome)

  /** What one animator callback does. */
  datatype CallbackOutcome = CallbackOutcome(animation: Animation, callbacks: seq<HostCallback>)

  /**
   `animate(transitions)`: ignored while an animation is installed or when
   the options or the host have gone; otherwise installs a `State` for the
   list, tells the host the transition is starting and starts an animator
   that drives the value from 0 to 1 over the options' transition duration.
   The `State` is installed before the duration is set, so a negative
   duration leaves it installed with the host never told and no animator
   running.
   */
  function Animate(a: Animation, transitions: seq<ClusterTransition>, options: Ref<Options>, hostPresent: bool)
    : (r: AnimateOutcome)
    ensures a.Active? ==> r == AnimateOutcome(a, [], NotStarted)
    ensures a.Idle? && (options.Null? || !hostPresent) ==> r == AnimateOutcome(Idle, [], NotStarted)
    ensures a.Idle? && options.Live? && hostPresent ==>
      && r.animation.Active?
      && r.animation.state.transitions == transitions
      && r.animation.state.value == 0.0
    ensures a.Idle? && options.Live? && hostPresent && options.value.transitionDuration >= 0 ==>
      && r.callbacks == [TransitionStarting]
      && r.animator == Started(Animator(0.0, 1.0, options.value.transitionDuration))
    ensures a.Idle? && options.Live? && hostPresent && options.value.transitionDuration < 0 ==>
      && r.callbacks == []
      && r.animator == Rejected(options.value.transitionDuration)
  {
    if a.Active? then
      AnimateOutcome(a, [], NotStarted)
    else if options.Live? && hostPresent then
      var installed := Active(State(transitions, 0.0));
      var duration := options.value.transitionDuration;
      if duration < 0 then
        AnimateOutcome(installed, [], Rejected(duration))
      else
        AnimateOutcome(installed, [TransitionStarting], Started(Animator(0.0, 1.0, duration)))
    else
      AnimateOutcome(a, [], NotStarted)
  }

  /** `onAnimationEnd`: back to Idle; the host hears of it only if it is still there. */
  function OnAnimationEnd(a: Animation, hostPresent: bool): (r: CallbackOutcome)
    ensures r.animation == Idle
    ensures r.callbacks == if hostPresent then [TransitionFinished] else []
  {
    CallbackOutcome(Idle, if hostPresent then [TransitionFinished] else [])
  }

  /** `onAnimationCancel` does nothing. */
  function OnAnimationCancel(a: Animation): (r: CallbackOutcome)
    ensures r.animation == a && r.callbacks == []
  {
    CallbackOutcome(a, [])
  }

  /** `onAnimationRepeat` does nothing. */
  function OnAnimationRepeat(a: Animation): (r: CallbackOutcome)
    ensures r.animation == a && r.callbacks == []
  {
    CallbackOutcome(a, [])
  }

  /** `State.setValue`, called by the animator on every frame. */
  function SetValue(s: State, value: real): (r: State)
    ensures r.value == value
    ensures r.transitions == s.transitions
  {
    s.(value := value)
  }

  /**
   The position of one transition at animated value `v`, as the library
   computes it: the origin at value 0 and the destination at value 1.
   */
  function Interpolate(t: ClusterTransition, v: real): (r: LatLng)
    ensures v == 0.0 ==> r == t.origin
    ensures v == 1.0 ==> r == t.destination
  {
    LatLng(t.origin.latitude + v * (t.destination.latitude - t.origin.latitude),
           t.origin.longitude + v * (t.destination.longitude - t.origin.longitude))
  }

  /** `State.getPositions`: one position per transition, in list order. */
  method GetPositions(s: State) returns (positions: seq<LatLng>)
    ensures |positions| == |s.transitions|
    ensures forall i :: 0 <= i < |positions| ==> positions[i] == Interpolate(s.transitions[i], s.value)
  {
    positions := [];
    var i := 0;
    while i < |s.transitions|
      invariant i <= |s.transitions|
      invariant |positions| == i
      invariant forall k :: 0 <= k < i ==> positions[k] == Interpolate(s.transitions[k], s.value)
    {
      var transition := s.transitions[i];
      var start := transition.origin;
      var end := transition.destination;
      var currentLat := start.latitude + s.value * (end.latitude - start.latitude);
      var currentLon := start.longitude + s.value * (end.longitude - start.longitude);
      positions := positions + [LatLng(currentLat, currentLon)];
      i := i + 1;
    }
  }

  /**
   Each coordinate is the weighted average of its two endpoints, with weight
   `v` on the destination: latitude and longitude are interpolated linearly
   and independently of each other.
   */
  lemma InterpolateIsWeightedAverage(t: ClusterTransition, v: real)
    ensures Interpolate(t, v).latitude == (1.0 - v) * t.origin.latitude + v * t.destination.latitude
    ensures Interpolate(t, v).longitude == (1.0 - v) * t.origin.longitude + v * t.destination.longitude
  {
  }

  /** For a value in [0, 1] each coordinate lies between its two endpoints. */
  lemma InterpolateStaysBetween(t: ClusterTransition, v: real)
    requires 0.0 <= v <= 1.0
    ensures Between(Interpolate(t, v).latitude, t.origin.latitude, t.destination.latitude)
    ensures Between(Interpolate(t, v).longitude, t.origin.longitude, t.destination.longitude)
  {
    BetweenEndpoints(t.origin.latitude, t.destination.latitude, v);
    BetweenEndpoints(t.origin.longitude, t.destination.longitude, v);
  }

  /**
   A position the Google Maps `LatLng` constructor stores as given: latitude
   in [-90, 90] and longitude in [-180, 180). The constructor clamps a
   latitude and wraps a longitude outside these ranges.
   */
  predicate OnMap(p: LatLng) {
    -90.0 <= p.latitude <= 90.0 && -180.0 <= p.longitude < 180.0
  }

  /**
   Between two positions on the map, every interpolated position for a value
   in [0, 1] is on the map too, so constructing it clamps and wraps nothing.
   */
  lemma InterpolateStaysOnMap(t: ClusterTransition, v: real)
    requires OnMap(t.origin) && OnMap(t.destination) && 0.0 <= v <= 1.0
    ensures OnMap(Interpolate(t, v))
  {
    InterpolateStaysBetween(t, v);
  }

  /** `x` lies on the closed segment from `start` to `end`, in either direction. */
  predicate Between(x: real, start: real, end: real) {
    (start <= end ==> start <= x <= end) && (end <= start ==> end <= x <= start)
  }

  lemma BetweenEndpoints(start: real, end: real, v: real)
    requires 0.0 <= v <= 1.0
    ensures Between(start + v * (end - start), start, end)
  {
    ScaledStep(v, end - start, v * (end - start));
  }

  /** A fraction `step` of a step `d` points the same way and is no longer. */
  lemma ScaledStep(v: real, d: real, step: real)
    requires 0.0 <= v <= 1.0 && step == v * d
    ensures d >= 0.0 ==> 0.0 <= step <= d
    ensures d <= 0.0 ==> d <= step <= 0.0
  {
    assert (1.0 - v) * d == d - step;
  }

  /** Equal steps in the value move a transition's position by equal amounts. */
  lemma InterpolateIsLinear(t: ClusterTransition, u: real, w: real, d: real)
    ensures Interpolate(t, u + d).latitude - Interpolate(t, u).latitude
         == Interpolate(t, w + d).latitude - Interpolate(t, w).latitude
    ensures Interpolate(t, u + d).longitude - Interpolate(t, u).longitude
         == Interpolate(t, w + d).longitude - Interpolate(t, w).longitude
  {
    var dLat := t.destination.latitude - t.origin.latitude;
    var dLon := t.destination.longitude - t.origin.longitude;
    assert (u + d) * dLat - u * dLat == d * dLat == (w + d) * dLat - w * dLat;
    assert (u + d) * dLon - u * dLon == d * dLon == (w + d) * dLon - w * dLon;
  }

  /** A transition from (0, 0) to (10, 20) is at (5, 10) halfway through. */
  lemma HalfwayExample()
    ensures Interpolate(ClusterTransition(LatLng(0.0, 0.0), LatLng(10.0, 20.0)), 0.5) == LatLng(5.0, 10.0)
  {
  }

  // ---------------------------------------------------------------------------
  // Runs of the driver

  /** What reaches the driver: a call of `animate`, or a callback of the animator it started. */
  datatype Kind =
    | AnimateCall(transitions: seq<ClusterTransition>, options: Ref<Options>)
    | Frame(value: real)
    | AnimationEnd
    | AnimationCancel
    | AnimationRepeat

  /** One input, with whether the host was reachable at that moment. */
  datatype Input = Input(kind: Kind, hostPresent: bool)

  /** The driver together with whether an animator it started is still running. */
  datatype Driver = Driver(animation: Animation, animatorRunning: bool)

  const Fresh: Driver := Driver(Idle, false)

  /** A driver and the host callbacks made on the way to it. */
  datatype Trace = Trace(driver: Driver, callbacks: seq<HostCallback>)

  /**
   The effect of one input. Only a running animator calls back, and it stops
   running once it has delivered its end; a callback while none runs is not
   something that can happen and leaves everything as it is.
   */
  function Deliver(d: Driver, input: Input): Trace {
    match input.kind
    case AnimateCall(transitions, options) =>
      var r := Animate(d.animation, transitions, options, input.hostPresent);
      Trace(Driver(r.animation, d.animatorRunning || r.animator.Started?), r.callbacks)
    case Frame(value) =>
      if d.animatorRunning && d.animation.Active? then
        Trace(d.(animation := Active(SetValue(d.animation.state, value))), [])
      else Trace(d, [])
    case AnimationEnd =>
      if d.animatorRunning then
        var r := OnAnimationEnd(d.animation, input.hostPresent);
        Trace(Driver(r.animation, false), r.callbacks)
      else Trace(d, [])
    case AnimationCancel =>
      var r := OnAnimationCancel(d.animation);
      Trace(d.(animation := r.animation), r.callbacks)
    case AnimationRepeat =>
      var r := OnAnimationRepeat(d.animation);
      Trace(d.(animation := r.animation), r.callbacks)
  }

  /** The driver after `inputs`, and every host callback made on the way. */
  function Run(d: Driver, inputs: seq<Input>): Trace
    decreases |inputs|
  {
    if inputs == [] then Trace(d, [])
    else
      var n := |inputs| - 1;
      var before := Run(d, inputs[..n]);
      var step := Deliver(before.driver, inputs[n]);
      Trace(step.driver, before.callbacks + step.callbacks)
  }

  /** A weak reference that has been cleared stays cleared. */
  predicate HostNeverReturns(inputs: seq<Input>) {
    forall i, j :: 0 <= i < j < |inputs| && !inputs[i].hostPresent ==> !inputs[j].hostPresent
  }

  /** No `animate` call in `inputs` finds options with a negative transition duration. */
  predicate NonNegativeDurations(inputs: seq<Input>) {
    forall i :: 0 <= i < |inputs| && inputs[i].kind.AnimateCall? && inputs[i].kind.options.Live? ==>
      inputs[i].kind.options.value.transitionDuration >= 0
  }

  /** Starting and finished alternate, beginning with starting. */
  predicate Alternating(cs: seq<HostCallback>) {
    && (|cs| > 0 ==> cs[0] == TransitionStarting)
    && forall i :: 0 <= i < |cs| - 1 ==> cs[i] != cs[i + 1]
  }

  predicate EndsStarting(cs: seq<HostCallback>) {
    |cs| > 0 && cs[|cs| - 1] == TransitionStarting
  }

  /**
   What holds after a run: the callbacks alternate, an animator runs only
   while an animation is installed, while the host is reachable one runs
   exactly when the host last heard "starting", and without a negative
   duration an animation is installed exactly while its animator runs.
   */
  predicate Consistent(tr: Trace, hostPresent: bool, nonNegative: bool) {
    && Alternating(tr.callbacks)
    && (tr.driver.animatorRunning ==> tr.driver.animation.Active?)
    && (hostPresent ==> (tr.driver.animatorRunning <==> EndsStarting(tr.callbacks)))
    && (nonNegative ==> (tr.driver.animation.Active? <==> tr.driver.animatorRunning))
  }

  /** One input keeps a run consistent, provided a cleared host stays cleared. */
  lemma DeliverKeepsConsistent(before: Trace, hostBefore: bool, nonNegBefore: bool, input: Input, nonNeg: bool)
    requires Consistent(before, hostBefore, nonNegBefore)
    requires input.hostPresent ==> hostBefore
    requires nonNeg ==> nonNegBefore
    requires nonNeg && input.kind.AnimateCall? && input.kind.options.Live? ==>
      input.kind.options.value.transitionDuration >= 0
    ensures var step := Deliver(before.driver, input);
      Consistent(Trace(step.driver, before.callbacks + step.callbacks), input.hostPresent, nonNeg)
  {
    var step := Deliver(before.driver, input);
    var cs := before.callbacks + step.callbacks;
    if step.callbacks == [TransitionStarting] {
      assert !EndsStarting(before.callbacks);
      assert cs[|cs| - 1] == TransitionStarting;
    } else if step.callbacks == [TransitionFinished] {
      assert EndsStarting(before.callbacks);
      assert cs[|cs| - 1] == TransitionFinished;
    } else {
      assert step.callbacks == [];
      assert cs == before.callbacks;
    }
  }

  /**
   From a fresh driver, however `animate` calls and animator callbacks
   interleave, the host hears "starting" and "finished" strictly alternately,
   beginning with "starting": at most one animation runs at a time. An
   animator runs only while an animation is installed; while the host is
   still reachable one runs exactly when the last thing the host heard was
   "starting". Unless some `animate` met a negative duration, an animation
   is installed exactly while its animator runs.
   */
  lemma {:induction false} RunAlternates(inputs: seq<Input>)
    requires HostNeverReturns(inputs)
    ensures Alternating(Run(Fresh, inputs).callbacks)
    ensures Run(Fresh, inputs).driver.animatorRunning ==> Run(Fresh, inputs).driver.animation.Active?
    ensures (inputs == [] || inputs[|inputs| - 1].hostPresent) ==>
      (Run(Fresh, inputs).driver.animatorRunning <==> EndsStarting(Run(Fresh, inputs).callbacks))
    ensures NonNegativeDurations(inputs) ==>
      (Run(Fresh, inputs).driver.animation.Active? <==> Run(Fresh, inputs).driver.animatorRunning)
    decreases |inputs|
  {
    RunConsistent(inputs);
  }

  lemma {:induction false} RunConsistent(inputs: seq<Input>)
    requires HostNeverReturns(inputs)
    ensures Consistent(Run(Fresh, inputs), inputs == [] || inputs[|inputs| - 1].hostPresent,
                       NonNegativeDurations(inputs))
    decreases |inputs|
  {
    if inputs != [] {
      var n := |inputs| - 1;
      var prefix := inputs[..n];
      assert HostNeverReturns(prefix) by {
        forall i, j | 0 <= i < j < |prefix| && !prefix[i].hostPresent
          ensures !prefix[j].hostPresent
        {
          assert prefix[i] == inputs[i] && prefix[j] == inputs[j];
        }
      }
      var nonNeg := NonNegativeDurations(inputs);
      var nonNegBefore := NonNegativeDurations(prefix);
      if nonNeg {
        assert nonNegBefore by {
          forall i | 0 <= i < |prefix| && prefix[i].kind.AnimateCall? && prefix[i].kind.options.Live?
            ensures prefix[i].kind.options.value.transitionDuration >= 0
          {
            assert prefix[i] == inputs[i];
          }
        }
      }
      RunConsistent(prefix);
      var hostBefore := prefix == [] || prefix[|prefix| - 1].hostPresent;
      if inputs[n].hostPresent && n > 0 {
        assert inputs[n - 1].hostPresent;
      }
      DeliverKeepsConsistent(Run(Fresh, prefix), hostBefore, nonNegBefore, inputs[n], nonNeg);
    }
  }

  /**
   A driver whose `animate` met a negative duration is stuck: the animation
   stays installed with no animator to end it, so every later `animate` is
   ignored and the host hears nothing, whatever arrives.
   */
  lemma {:induction false} StuckForever(d: Driver, inputs: seq<Input>)
    requires d.animation.Active? && !d.animatorRunning
    ensures Run(d, inputs) == Trace(d, [])
    decreases |inputs|
  {
    if inputs != [] {
      var n := |inputs| - 1;
      StuckForever(d, inputs[..n]);
    }
  }

  /**
   A negative transition duration gets the driver stuck on the first
   `animate` that finds the options and the host: the list is installed,
   the host is never told, and no animator runs.
   */
  lemma NegativeDurationSticks(transitions: seq<ClusterTransition>, options: Options)
    requires options.transitionDuration < 0
    ensures Run(Fresh, [Input(AnimateCall(transitions, Live(options)), true)])
         == Trace(Driver(Active(State(transitions, 0.0)), false), [])
  {
    var inputs := [Input(AnimateCall(transitions, Live(options)), true)];
    assert inputs[..0] == [];
  }

  /**
   One animation from start to end: "starting" on `animate`, "finished" at
   the end, and a fresh driver again; a host gone by the end hears only
   "starting". With a negative duration the animator never runs, so the
   frame and the end never come and the driver keeps the list installed.
   */
  lemma OneAnimation(transitions: seq<ClusterTransition>, options: Options, v: real, hostAtEnd: bool)
    ensures var inputs := [Input(AnimateCall(transitions, Live(options)), true), Input(Frame(v), true),
                           Input(AnimationEnd, hostAtEnd)];
      && (options.transitionDuration >= 0 ==>
            && Run(Fresh, inputs).driver == Fresh
            && Run(Fresh, inputs).callbacks == if hostAtEnd then [TransitionStarting, TransitionFinished]
                                               else [TransitionStarting])
      && (options.transitionDuration < 0 ==>
            Run(Fresh, inputs) == Trace(Driver(Active(State(transitions, 0.0)), false), []))
  {
    var i0 := Input(AnimateCall(transitions, Live(options)), true);
    var i1 := Input(Frame(v), true);
    var i2 := Input(AnimationEnd, hostAtEnd);
    var inputs := [i0, i1, i2];
    assert inputs[..2][..1][..0] == [] && inputs[..2][..1] == [i0] && inputs[..2] == [i0, i1];
    var installed := Active(State(transitions, 0.0));
    if options.transitionDuration >= 0 {
      assert Run(Fresh, [i0]) == Trace(Driver(installed, true), [TransitionStarting]);
      assert Run(Fresh, [i0, i1]) == Trace(Driver(Active(State(transitions, v)), true), [TransitionStarting]);
    } else {
      assert Run(Fresh, [i0]) == Trace(Driver(installed, false), []);
      assert Run(Fresh, [i0, i1]) == Trace(Driver(installed, false), []);
    }
  }
}
